=== FILE: README.md ===
# API Chaos Monkey in Dafny

A model of the core of API Chaos Monkey. This is a Node.js middleware library. It injects faults into HTTP
request handling: artificial delays, error responses and gibberish bodies.
The model covers:

- **the chaos engine** (`lib/chaos-engine.js`). For each request, `applyChaos` counts the request and passes it
  through three gates:
  - a probability gate;
  - a route gate (a whitelist of routes that must match, a blacklist that must not);
  - a time-window gate.

  If every gate passes, the engine picks delay, error or gibberish with weighted odds, builds that outcome and
  records it in the running statistics (`updateStats`, `getStats`, `resetStats`).
- **the configuration helpers** (`lib/utils.js`): `validateConfig`, `mergeConfig`, `formatStats` and
  `createSchedule`.
- **the preset table** (`lib/chaos-levels.js`): `mild`, `wild`, `ape-pocalypse`, `custom`, `weekend` and `network`.
- **the custom-chaos helpers** (`lib/custom-chaos.js`): `createCustomChaos`, plus the three predefined behaviours
  that compute a value (`corruptResponse`, `inflateResponse`, `intermittentFailure`).
- **the entry point** (`index.js`): `apiChaosMonkey` validates the merged configuration. The per-framework
  convenience exports do not.

How JavaScript's effects are represented:

- Every `Math.random()` is an explicit parameter, a real `r` with `0 <= r < 1` (`Random.IsDraw`).
  `Math.floor(Math.random() * n)` is `Random.PickIndex`.
- The wall clock is a parameter. Time windows use minutes since midnight; statistics, uptime and
  `intermittentFailure` use millisecond timestamps.
- Configuration numbers and statistics are exact integers and reals.
- A RegExp route matcher is represented by its source text. It is tested through a caller-supplied
  function `regexTest(source, path)`.
- The engine's statistics are an immutable record. Each operation returns the new record.

The modules follow the source files:

- `Wrappers`: `Option` and `Result`.
- `Random`: draws.
- `Types`: configuration, routes, windows, outcomes.
- `EngineStats`: the statistics record.
- `ChaosEngine`: gates, selection, outcome construction, `applyChaos` and runs of calls.
- `ChaosLevels`: the presets.
- `Utils`: validation, merge, formatting, schedule.
- `PresetValidity`: facts joining the presets to validation and the engine.
- `CustomChaos`: the custom-chaos helpers.
- `Api`: the entry point.

Behaviour of the source worth knowing:

- Gibberish comes in four kinds: `json`, `text`, `html` and `xml`.
- `probability: 0` does not fully disable chaos. The skip test is the strict `Math.random() > probability`,
  so the draw 0 still passes.
- `validateConfig` rejects a delay range with equal ends such as `[500, 500]`, because min must be strictly
  less than max. The engine itself handles such a range and always delays 500 ms.
- A time window whose start is after its end (one that crosses midnight) matches no time at all.
- The engine never reads a `customChaos` configuration key. Custom behaviours are stand-alone helpers.
- `applyChaos` counts a request before it waits for the outcome and records the outcome afterwards. A
  `resetStats` that runs in between leaves the late record on the fresh statistics.

## Model

| member | source | states |
|---|---|---|
| Random.PickIndex | lib/chaos-engine.js:124 | `Math.floor(r * n)` for a draw is an index below `n`, and the scaled draw lies in `[i, i+1)` |
| Random.PickIndexReachesEvery | lib/chaos-engine.js:124 | every index below `n` is selected by some draw (the draw `i/n`) |
| ChaosEngine.StartsWithIsPrefix | lib/chaos-engine.js:226 | `startsWith` holds exactly when the route is a sequence prefix of the path |
| ChaosEngine.RouteMatches | lib/chaos-engine.js:225-228 | a string route matches a path iff it is a prefix of it (the equality test adds nothing); a RegExp route matches iff its test accepts the path |
| ChaosEngine.MatchesRoutes | lib/chaos-engine.js:223-230 | the list matches iff some route in it matches the path (`some`) |
| ChaosEngine.InWindow | lib/chaos-engine.js:242-245 | a window contains a minute iff start <= minute <= end, both ends included |
| ChaosEngine.InvertedWindowNeverMatches | lib/chaos-engine.js:245 | a window whose start is after its end (one meant to cross midnight) contains no time: the comparison does not wrap |
| ChaosEngine.IsInTimeWindow | lib/chaos-engine.js:235-247 | true iff some window has start <= now <= end in minutes since midnight |
| ChaosEngine.ShouldApplyChaos | lib/chaos-engine.js:55-69 | passes iff draw <= probability, some whitelisted route matches when a whitelist exists, no blacklisted route matches, and some window contains now when windows exist |
| ChaosEngine.CertainProbabilityAlwaysPasses | lib/chaos-engine.js:59 | probability >= 1 lets every draw through the probability gate |
| ChaosEngine.ZeroProbabilityPassesOnlyAtZero | lib/chaos-engine.js:59 | with probability 0 the gate passes iff the draw is exactly 0 |
| ChaosEngine.DisabledRouteWins | lib/chaos-engine.js:62-63 | a path matched by any blacklisted route is never given chaos, whatever the whitelist |
| ChaosEngine.WhitelistExcludes | lib/chaos-engine.js:62 | with a whitelist present, a path none of its routes match is skipped (an empty whitelist skips all) |
| ChaosEngine.OutsideWindowsExcludes | lib/chaos-engine.js:66 | with windows present, a time outside all of them is skipped (an empty list skips all) |
| ChaosEngine.HealthCheckExample | lib/chaos-engine.js:62-63 | whitelist `/api/` with blacklist `/api/health`: `/api/health` is always skipped, `/api/users` passes the route gate |
| ChaosEngine.ZeroWeightNeverChosen | lib/chaos-engine.js:74-82 | with a positive total, a kind whose weight is 0 is never selected |
| ChaosEngine.SelectChaosType | lib/chaos-engine.js:74-82 | for non-negative weights with a positive total t, delay is chosen on draws in [0, d/t), error on [d/t, (d+e)/t), gibberish on [(d+e)/t, 1), so each kind's chance is its weight over the total |
| ChaosEngine.DelayFor | lib/chaos-engine.js:103-105 | the delay lies in [min, max] whenever min <= max |
| ChaosEngine.DelayReachesEvery | lib/chaos-engine.js:105 | every delay in [min, max] is produced by some draw |
| ChaosEngine.ErrorMessages | lib/chaos-engine.js:126-133 | every status code has a non-empty message pool (the unknown-error pool for codes without one) |
| ChaosEngine.GenerateError | lib/chaos-engine.js:122-145 | the status code is one of the configured codes, the message comes from that code's pool, and codes other than 500/503/502/429 get the unknown-error message |
| ChaosEngine.EveryErrorCodeReachable | lib/chaos-engine.js:124 | every configured code is returned for some code draw |
| ChaosEngine.ContentTypeOf | lib/chaos-engine.js:210-218 | every result is one of the four media types, and a name other than the four gibberish kinds gets text/plain (inherited object keys aside, see "Left out") |
| ChaosEngine.ContentTypeIdentifiesKind | lib/chaos-engine.js:211-216 | distinct gibberish kinds have distinct media types |
| ChaosEngine.GenerateGibberish | lib/chaos-engine.js:150-165 | the kind is one of json/text/html/xml and the content type is that kind's |
| ChaosEngine.EveryGibberishTypeReachable | lib/chaos-engine.js:152 | each of the four gibberish kinds is produced by some draw (the draw `i/4`) |
| ChaosEngine.ExecuteChaos | lib/chaos-engine.js:87-98 | the outcome is of the selected kind; a delay lies in [min, max] when min <= max, an error's code is configured and its message comes from that code's pool, a gibberish outcome has one of the four kinds and that kind's content type |
| ChaosEngine.ApplyChaos | lib/chaos-engine.js:31-50 | every call counts the request. The outcome is `none` iff the gates fail, and then only the count changes. Otherwise the outcome has the selected kind, its delay lies in range, its code is configured and its message comes from that code's pool, and its gibberish kind is one of the four with that kind's content type. The counter of the outcome's kind grows by one and the other two are kept. The delay sum grows by the delay, the average is kept for other kinds, and the counter invariant is kept |
| ChaosEngine.ApplyChaosReachesEveryDelay | lib/chaos-engine.js:87-105 | once the gates pass and delay is selected, every delay in [min, max] is the outcome of `applyChaos` for some `pick` draw |
| ChaosEngine.ApplyChaosReachesEveryCode | lib/chaos-engine.js:87-124 | once the gates pass and error is selected, every configured status code is the outcome's code for some `pick` draw |
| ChaosEngine.ApplyChaosReachesEveryGibberish | lib/chaos-engine.js:87-152 | once the gates pass and gibberish is selected, each of the four kinds is the outcome's kind for some `pick` draw |
| ChaosEngine.CertainChaosNeverSkips | lib/chaos-engine.js:38-44 | probability 1 with no route or time restriction never yields `none` |
| ChaosEngine.ZeroProbabilitySkips | lib/chaos-engine.js:59 | probability 0 yields `none` for every draw above 0 |
| ChaosEngine.ZeroProbabilityZeroDrawIntervenes | lib/chaos-engine.js:59 | probability 0 with the draw 0 and no other restriction still intervenes |
| ChaosEngine.ForcedDelayExample | lib/chaos-engine.js:31-50 | probability 1, weights 100/0/0 and range [500, 500] on fresh statistics give a 500 ms delay, an average of 500 and a chaos rate of 1 |
| ChaosEngine.Serve | lib/chaos-engine.js:31-50 | successive calls on one engine give one outcome per call |
| ChaosEngine.ServeAccounting | lib/chaos-engine.js:252-265 | over any run of calls that each finish before the next starts, the total grows by the number of calls, the interventions by the non-`none` outcomes, the delayed count by the delays produced and the delay sum by their sum. The counter invariant is kept |
| ChaosEngine.ServeKindCounts | lib/chaos-engine.js:258-263 | over any such run, the error and gibberish counters grow by the number of outcomes of their kind |
| ChaosEngine.AverageDelayIsMean | lib/chaos-engine.js:256 | after any run from reset statistics, `averageDelay` is the arithmetic mean of the delays produced |
| ChaosEngine.ChaosRateIsInterventionFraction | lib/chaos-engine.js:274-275 | after any non-empty run from reset statistics, `chaosRate` is the fraction of calls that got an intervention, a value in [0, 1] |
| EngineStats.ResetStats | lib/chaos-engine.js:282-291 | a reset has no requests and no interventions, averages 0, restarts the clock at now, and is consistent |
| EngineStats.CountRequest | lib/chaos-engine.js:33 | the total grows by one and nothing else changes: every kind counter, the average and the start time are kept |
| EngineStats.UpdateStats | lib/chaos-engine.js:252-265 | a non-`none` outcome bumps exactly its own counter. A delay adds its value to the running delay sum (so the average stays the mean). Other outcomes leave the average alone, and the total and start time never change |
| EngineStats.GetStats | lib/chaos-engine.js:270-277 | the counters are copied, uptime is now minus start, the chaos rate is 0 before any request and otherwise times the total equals the interventions, and it lies in [0, 1] for consistent statistics |
| EngineStats.ResetThenSnapshot | lib/chaos-engine.js:282-291 | right after a reset the snapshot shows no requests, rate 0 and uptime since the reset |
| EngineStats.ResetDuringDelayBreaksInvariant | lib/chaos-engine.js:44-46 | a delay recorded onto statistics reset while it was pending gives one delayed request out of zero, breaking the counter invariant |
| ChaosLevels.PresetWeightsSumTo100 | lib/chaos-levels.js:5-86 | every preset's weights are non-negative and total 100 |
| ChaosLevels.OnlyWeekendHasWindows | lib/chaos-levels.js:59-73 | only `weekend` has time windows, exactly one 00:00-23:59, and no preset restricts routes |
| Utils.InvalidCodes | lib/utils.js:54-55 | the warned codes are exactly the configured codes outside the known list |
| Utils.ValidateConfig | lib/utils.js:37-59 | accepts iff probability is in [0, 1], the range has two ends with min < max, and there is at least one code. Each failure carries the message of the first failing check in source order. Success reports exactly the unknown codes |
| Utils.UnknownCodesOnlyWarn | lib/utils.js:54-58 | an unknown code never makes an otherwise acceptable configuration fail; it is reported |
| Utils.ValidationExamples | lib/utils.js:38-48 | probability 1.5, range [2000, 100] and range [500, 500] are rejected with their messages; a sound configuration passes |
| Utils.BaseConfig | lib/utils.js:66-85 | the base is the named preset when the name is known and the default otherwise; every base passes validation and has weights totalling 100 |
| Utils.MergeConfig | lib/utils.js:64-98 | each key is the user's value when supplied, else the base's (named preset or default). Weights summing to 0 are replaced by the base's, so the merged weights never total 0 |
| Utils.FullOverrideRoundTrip | lib/utils.js:88 | a configuration supplied key by key comes back unchanged, whatever preset is named, unless its weights total 0 |
| Utils.MergeBaseOnly | lib/utils.js:66-85 | no options give the default configuration, a known preset name alone gives that preset, an unknown name gives the default |
| Utils.ZeroWeightsFallBack | lib/utils.js:91-96 | zero weights over `mild` become mild's 70/20/10 |
| Utils.MildOverrideExample | lib/utils.js:88 | `{ chaos: 'mild', probability: 0.8 }` keeps 0.8 and inherits mild's range and logging |
| Utils.JsRound | lib/utils.js:112 | `Math.round` gives the integer within half a unit, halves going up |
| Utils.FormatStats | lib/utils.js:104-114 | the snapshot is kept, `uptimeSeconds` is the floor of uptime/1000, `averageDelayMs` is the average rounded |
| Utils.ToEntry | lib/utils.js:123-131 | an entry keeps its chaos name, triggers hours and minutes after midnight of the day, and lasts the given duration or one hour when none or 0 is given |
| Utils.Entries | lib/utils.js:122-132 | one entry per item, in item order |
| Utils.Insert | lib/utils.js:134 | inserting into a time-sorted list keeps it sorted and adds exactly the entry |
| Utils.SortByTime | lib/utils.js:134 | the result is sorted by trigger time and a permutation of the input |
| Utils.CreateSchedule | lib/utils.js:119-135 | the schedule has one entry per item, is sorted by trigger time, is a permutation of the items' entries, and contains every item's entry |
| PresetValidity.PresetPassesValidation | lib/chaos-levels.js:5-86 | every preset passes `validateConfig` without a warning |
| PresetValidity.MergedPresetPassesValidation | lib/utils.js:64-98 | merging any preset name (or an unknown one) gives a configuration that validates and that the engine can run |
| PresetValidity.AcceptedConfigIsEngineReady | lib/utils.js:37-59 | anything `validateConfig` accepts has the two range ends and the error code the engine reads |
| PresetValidity.WeekendCoversWholeDay | lib/chaos-levels.js:68-70 | the weekend window contains every minute of the day, so its time gate always passes |
| Api.ApiChaosMonkey | index.js:11-19 | succeeds iff the merged configuration validates, then with that configuration, which the engine can run; otherwise fails with the validation message |
| Api.ConvenienceConfig | index.js:28-30 | the convenience exports' configuration never has zero total weight; it passes validation iff `apiChaosMonkey` succeeds, and then it is the configuration `apiChaosMonkey` returns |
| Api.ConvenienceExportsSkipValidation | index.js:28-30 | probability 1.5 makes `apiChaosMonkey` fail, but a convenience export builds an engine with it |
| Api.EveryPresetStarts | index.js:11-13 | naming any preset, or none, starts successfully |
| CustomChaos.CreateCustomChaos | lib/custom-chaos.js:10-16 | the wrapper is tagged `custom`, keeps the behaviour, and its options default to an empty object |
| CustomChaos.CorruptChar | lib/custom-chaos.js:71 | a replacement character has a code from 33 to 158 |
| CustomChaos.EveryCorruptCharReachable | lib/custom-chaos.js:71 | every code from 33 to 158 is produced by some draw |
| CustomChaos.CorruptResponse | lib/custom-chaos.js:64-83 | a string keeps its length and each character is either kept (draw >= 0.1) or replaced by the character its code draw selects (draw < 0.1). With no hit the text is unchanged; a non-string gives `none` |
| CustomChaos.InflationSize | lib/custom-chaos.js:107 | the inflation size lies in [10000, 110000) |
| CustomChaos.Repeat | lib/custom-chaos.js:108 | `s.repeat(n)` has length n times the length of `s` |
| CustomChaos.RepeatContents | lib/custom-chaos.js:108 | copy k of the unit sits at offset k times the unit length |
| CustomChaos.PaddingLength | lib/custom-chaos.js:107-108 | the padding is 21 times size/20 characters, between 10500 and 115479 |
| CustomChaos.InflateResponse | lib/custom-chaos.js:106-126 | an object or `null` keeps its own keys and gains `chaosPadding` (the padding) and `chaosMessage`. Anything else becomes its text, a blank line, then the padding, and reports the size |
| CustomChaos.PaddingAt | lib/custom-chaos.js:108 | character i of the padding is the unit's character at i mod 21 |
| CustomChaos.InflatedTailIsPadding | lib/custom-chaos.js:123 | every character after the blank line is the padding unit's character at that offset mod 21 |
| CustomChaos.InflationGrowth | lib/custom-chaos.js:108-123 | inflating a string or other non-object value makes its text between 10502 and 115481 characters longer (the blank line plus the padding) |
| CustomChaos.IntermittentFailure | lib/custom-chaos.js:131-144 | a 503 with the moody message iff the millisecond clock mod 5 is 0, 2 or 3; otherwise `none` |
| CustomChaos.FailurePeriod | lib/custom-chaos.js:132-133 | the behaviour repeats every 5 ms |
| CustomChaos.ThreeInEveryFive | lib/custom-chaos.js:132-135 | any 5 consecutive milliseconds hold exactly 3 failures |
| CustomChaos.FailureRate | lib/custom-chaos.js:132-135 | any 5k consecutive milliseconds hold exactly 3k failures |

## Left out

- RegExp flags and `lastIndex`: a RegExp route is represented by its source text only, so `/api/i` and `/api/` are the same route, and the changing `lastIndex` of a global or sticky RegExp's `test` is not represented. The caller-supplied `regexTest` is a pure function.
- Timers, promises and the actual sleep of `applyDelay`: only the delay value is modelled.
- Event emission (`chaos:start`, `chaos:delay`, …), `setupLogging` and the logger: they are observational only.
- `generateId` and `chaosId`: random identifiers carry no behaviour.
- The bodies of gibberish responses (`generateGibberishContent`) and the message texts of delay and gibberish
  outcomes: they are free-form random text. The kind and content type are modelled.
- `memoryLeak`, `cpuSpike` and `networkJitter`, and the `customChaosTypes` registry object: they only
  consume memory, CPU or wall-clock time.
- `lib/middleware.js` and the framework adapters it feeds: request and response plumbing. Of the request,
  only its path is modelled.
- Floating-point arithmetic: probabilities, weights and averages are exact reals, so rounding in
  `averageDelay` and `chaosRate` is not reproduced.
- `Number()` parsing of `'HH:MM'` strings and NaN: windows and schedule items are modelled already split into
  numbers.
- Explicit `undefined` option values and `null` weights: options are either supplied or not.
- A `chaosWeights` option that lacks a key, such as `{ gibberishWeight: 100 }`, is not modelled. `Weights`
  always has all three numbers. In the source such an option replaces the base weights wholesale. Its total
  is NaN, so the zero-total fallback does not fire, and `selectChaosType` then picks gibberish for every draw.
- Names that hit inherited object keys such as `toString`, `constructor` or `__proto__` are not modelled.
  As a preset name in `mergeConfig`, such a name selects a prototype member. As a type name in
  `getContentType`, it returns that member instead of text/plain. The engine itself only passes the four
  gibberish kinds to `getContentType`.
- JavaScript strings are sequences of UTF-16 code units. Here a `char` stands for one code unit, and no text
  contains surrogate pairs except the emoji in messages.
- Utils.CreateSchedule: each item's `new Date()` is one fixed local midnight `dayStart`, so DST changes and
  a clock that ticks between items are not modelled. Stability of the sort among equal times is not stated.
- Utils.FormatStats: the `chaosRatePercent` text (`toFixed(1)`) is not modelled.
- CustomChaos.InflateResponse: the inflation message text (`toFixed(1)` of the size in KB) is represented by
  the size it reports.
- ChaosEngine.ApplyChaos, ChaosEngine.ExecuteChaos: require a delay range with two ends and at least one error
  code (`EngineReady`) on every call. The source needs them only on the path that reads them: a delay
  without two ends computes NaN, and an error with no codes reads `undefined`. A call whose gates fail, or
  whose chosen kind does not read the missing value (for example `errorCodes: []` with weights 100/0/0),
  runs normally in the source but is not covered here. `validateConfig` guarantees both values
  (`PresetValidity.AcceptedConfigIsEngineReady`), but the convenience exports skip it.
- ChaosEngine.ServeAccounting: holds only for calls that each finish before the next starts (likewise
  `AverageDelayIsMean` and `ChaosRateIsInterventionFraction`). In the source, `applyChaos` counts the request
  before its `await` and records the outcome after it, so concurrent calls interleave. A `resetStats` inside
  that gap lets a late record land on the fresh statistics and break the counter invariant
  (`EngineStats.ResetDuringDelayBreaksInvariant`). Interleaved calls are not modelled.
- CustomChaos.CorruptResponse: a non-string response is returned as `none` whatever draws are supplied. The
  draws of one character are a pair, even though the source draws the code only on a hit.

=== FILE: api.dfy ===
/**
 * The package entry point: `apiChaosMonkey(options)` merges and validates
 * the configuration before building the engine, while the per-framework
 * convenience exports only merge. The middleware they return is outside the
 * model; what is modelled is the configuration the engine is built from.
 */
module Api {
  import opened Wrappers
  import opened Types
  import opened ChaosEngine
  import Utils
  import PresetValidity

  /**
   * `apiChaosMonkey(options)`: the configuration the engine receives, or the
   * error `validateConfig` throws.
   */
  function ApiChaosMonkey(options: Utils.Options): (r: Result<Config, string>)
    ensures r.Success? <==> Utils.AcceptableConfig(Utils.MergeConfig(options))
    ensures r.Success? ==> r.value == Utils.MergeConfig(options) && EngineReady(r.value)
    ensures r.Failure? ==> Utils.ValidateConfig(Utils.MergeConfig(options)) == Failure(r.error)
  {
    var config := Utils.MergeConfig(options);
    match Utils.ValidateConfig(config)
    case Failure(e) => Failure(e)
    case Success(_) =>
      PresetValidity.AcceptedConfigIsEngineReady(config);
      Success(config)
  }

  /**
   * `express(options)`, `koa(options)`, `fastify(options)`: the merged
   * configuration, unvalidated. Whenever `apiChaosMonkey` would accept the
   * options, both entry points build the engine from the same configuration.
   */
  function ConvenienceConfig(options: Utils.Options): (c: Config)
    ensures c.chaosWeights.Total() != 0.0
    ensures ApiChaosMonkey(options).Success? <==> Utils.AcceptableConfig(c)
    ensures ApiChaosMonkey(options).Success? ==> ApiChaosMonkey(options).value == c
  {
    Utils.MergeConfig(options)
  }

  /**
   * Probability 1.5 makes `apiChaosMonkey` throw, but a convenience export
   * builds an engine from it all the same.
   */
  lemma ConvenienceExportsSkipValidation()
    ensures ApiChaosMonkey(Utils.NoOptions.(probability := Some(1.5))) == Failure(Utils.ProbabilityError)
    ensures ConvenienceConfig(Utils.NoOptions.(probability := Some(1.5))).probability == 1.5
  {
  }

  /** Naming any preset, or none, gives an engine configuration. */
  lemma EveryPresetStarts(name: string)
    ensures ApiChaosMonkey(Utils.NoOptions.(chaos := Some(name))).Success?
    ensures ApiChaosMonkey(Utils.NoOptions).Success?
  {
    PresetValidity.MergedPresetPassesValidation(name);
    Utils.MergeBaseOnly(name);
    assert Utils.MergeConfig(Utils.NoOptions) == Utils.DefaultConfig;
  }
}

=== FILE: chaos_engine.dfy ===
/**
 * The per-request chaos decision of `ChaosEngine.applyChaos`: a probability
 * gate, a route gate and a time-window gate, then a weighted choice among
 * delay, error and gibberish, the construction of that outcome and the
 * statistics update. Random draws, the wall clock and RegExp tests are
 * parameters.
 */
module ChaosEngine {
  import opened Wrappers
  import opened Random
  import opened Types
  import opened EngineStats

  // ---------------------------------------------------------------------------
  // Route matching
  // ---------------------------------------------------------------------------

  /** `s.startsWith(prefix)`, compared character by character. */
  function StartsWith(s: string, prefix: string): bool
    decreases prefix
  {
    |prefix| == 0 || (|s| > 0 && s[0] == prefix[0] && StartsWith(s[1..], prefix[1..]))
  }

  lemma {:induction false} StartsWithIsPrefix(s: string, prefix: string)
    ensures StartsWith(s, prefix) <==> prefix <= s
    decreases prefix
  {
    if |prefix| > 0 && |s| > 0 {
      StartsWithIsPrefix(s[1..], prefix[1..]);
      assert prefix <= s <==> prefix[0] == s[0] && prefix[1..] <= s[1..];
    }
  }

  /**
   * One matcher of `matchesRoutes`: a string matches when it equals the path
   * or the path starts with it, which is exactly when it is a prefix of the
   * path; a RegExp is asked through `regexTest`.
   */
  function RouteMatches(path: string, route: Route, regexTest: (string, string) -> bool): (b: bool)
    ensures route.Prefix? ==> (b <==> route.route <= path)
    ensures route.Pattern? ==> (b <==> regexTest(route.source, path))
  {
    match route
    case Prefix(r) =>
      StartsWithIsPrefix(path, r);
      path == r || StartsWith(path, r)
    case Pattern(source) => regexTest(source, path)
  }

  /** `matchesRoutes(path, routes)`: `routes.some(...)`, first match wins. */
  function MatchesRoutes(path: string, routes: seq<Route>, regexTest: (string, string) -> bool): (b: bool)
    ensures b <==> exists i :: 0 <= i < |routes| && RouteMatches(path, routes[i], regexTest)
  {
    if |routes| == 0 then false
    else if RouteMatches(path, routes[0], regexTest) then true
    else
      var rest := MatchesRoutes(path, routes[1..], regexTest);
      assert forall i :: 1 <= i < |routes| ==> routes[i] == routes[1..][i - 1];
      rest
  }

  // ---------------------------------------------------------------------------
  // Time windows
  // ---------------------------------------------------------------------------

  /**
   * A window matches when start <= now <= end, all in minutes since
   * midnight, both ends included. There is no wrap-around: a window whose
   * start is after its end matches no time.
   */
  function InWindow(w: TimeWindow, now: int): (b: bool)
    ensures b <==> w.startTime <= now && now <= w.endTime
  {
    now >= w.startTime && now <= w.endTime
  }

  /**
   * A window meant to cross midnight (start after end, such as 22:00-02:00)
   * matches no time at all: the comparison does not wrap.
   */
  lemma InvertedWindowNeverMatches(w: TimeWindow, now: int)
    requires w.startTime > w.endTime
    ensures !InWindow(w, now)
  {
  }

  /**
   * `isInTimeWindow(timeWindows)` when the local time is `now` minutes past
   * midnight (`getHours() * 60 + getMinutes()`): `timeWindows.some(...)`.
   */
  function IsInTimeWindow(windows: seq<TimeWindow>, now: int): (b: bool)
    ensures b <==> exists i :: 0 <= i < |windows| && InWindow(windows[i], now)
  {
    if |windows| == 0 then false
    else if InWindow(windows[0], now) then true
    else
      var rest := IsInTimeWindow(windows[1..], now);
      assert forall i :: 1 <= i < |windows| ==> windows[i] == windows[1..][i - 1];
      rest
  }

  // ---------------------------------------------------------------------------
  // Gates
  // ---------------------------------------------------------------------------

  /** `Math.random() > probability` skips, so the gate passes when the draw is at most `p`. */
  predicate ProbabilityGate(p: real, r: real) {
    !(r > p)
  }

  /** The whitelist must match when present; the blacklist must not match when present. */
  predicate RouteGate(c: Config, path: string, regexTest: (string, string) -> bool) {
    && !(c.enabledRoutes.Some? && !MatchesRoutes(path, c.enabledRoutes.value, regexTest))
    && !(c.disabledRoutes.Some? && MatchesRoutes(path, c.disabledRoutes.value, regexTest))
  }

  predicate TimeGate(c: Config, now: int) {
    !(c.timeWindows.Some? && !IsInTimeWindow(c.timeWindows.value, now))
  }

  /**
   * `shouldApplyChaos(context)`: the three gates in order. It passes exactly
   * when the draw is at most `probability`, some whitelisted route (if any
   * whitelist) matches, no blacklisted route matches, and some window (if
   * any windows) contains `now`.
   */
  function ShouldApplyChaos(c: Config, path: string, now: int, gateDraw: real,
                            regexTest: (string, string) -> bool): (b: bool)
    ensures b <==>
      && gateDraw <= c.probability
      && (c.enabledRoutes.Some? ==>
            exists i :: 0 <= i < |c.enabledRoutes.value| && RouteMatches(path, c.enabledRoutes.value[i], regexTest))
      && (c.disabledRoutes.Some? ==>
            forall i :: 0 <= i < |c.disabledRoutes.value| ==> !RouteMatches(path, c.disabledRoutes.value[i], regexTest))
      && (c.timeWindows.Some? ==>
            exists i :: 0 <= i < |c.timeWindows.value| && InWindow(c.timeWindows.value[i], now))
  {
    if !ProbabilityGate(c.probability, gateDraw) then false
    else if !RouteGate(c, path, regexTest) then false
    else TimeGate(c, now)
  }

  /** With `probability` 1 (or more) every draw passes the probability gate. */
  lemma CertainProbabilityAlwaysPasses(p: real, r: real)
    requires p >= 1.0 && IsDraw(r)
    ensures ProbabilityGate(p, r)
  {
  }

  /**
   * With `probability` 0 the gate still passes for the draw 0, because the
   * comparison that skips is the strict `>`; every other draw is skipped.
   */
  lemma ZeroProbabilityPassesOnlyAtZero(r: real)
    requires IsDraw(r)
    ensures ProbabilityGate(0.0, r) <==> r == 0.0
  {
  }

  /** A path matched by a blacklisted route is skipped, whatever the whitelist says. */
  lemma DisabledRouteWins(c: Config, path: string, now: int, gateDraw: real,
                          regexTest: (string, string) -> bool, i: nat)
    requires c.disabledRoutes.Some? && i < |c.disabledRoutes.value|
    requires RouteMatches(path, c.disabledRoutes.value[i], regexTest)
    ensures !ShouldApplyChaos(c, path, now, gateDraw, regexTest)
  {
  }

  /** With a whitelist present, a path it does not match is skipped; an empty whitelist skips every path. */
  lemma WhitelistExcludes(c: Config, path: string, now: int, gateDraw: real,
                          regexTest: (string, string) -> bool)
    requires c.enabledRoutes.Some?
    requires forall i :: 0 <= i < |c.enabledRoutes.value| ==> !RouteMatches(path, c.enabledRoutes.value[i], regexTest)
    ensures !ShouldApplyChaos(c, path, now, gateDraw, regexTest)
  {
  }

  /** With windows present, a time outside all of them is skipped; an empty list skips every time. */
  lemma OutsideWindowsExcludes(c: Config, path: string, now: int, gateDraw: real,
                               regexTest: (string, string) -> bool)
    requires c.timeWindows.Some?
    requires forall i :: 0 <= i < |c.timeWindows.value| ==> !InWindow(c.timeWindows.value[i], now)
    ensures !ShouldApplyChaos(c, path, now, gateDraw, regexTest)
  {
  }

  /**
   * `enabledRoutes: ['/api/']` with `disabledRoutes: ['/api/health']`:
   * `/api/health` is always skipped, `/api/users` passes the route gate.
   */
  lemma HealthCheckExample(c: Config, now: int, gateDraw: real, regexTest: (string, string) -> bool)
    requires c.enabledRoutes == Some([Prefix("/api/")])
    requires c.disabledRoutes == Some([Prefix("/api/health")])
    ensures !ShouldApplyChaos(c, "/api/health", now, gateDraw, regexTest)
    ensures RouteGate(c, "/api/users", regexTest)
  {
    assert !("/api/health" <= "/api/users") by {
      assert "/api/users"[5] != "/api/health"[5];
    }
  }

  // ---------------------------------------------------------------------------
  // Weighted selection
  // ---------------------------------------------------------------------------

  /**
   * `selectChaosType()`: scales the draw to [0, total) and partitions that
   * interval by cumulative weight in the order delay, error, gibberish. For
   * non-negative weights with a positive total `t`, delay is chosen on the
   * draws [0, dw/t), error on [dw/t, (dw+ew)/t) and gibberish on
   * [(dw+ew)/t, 1): each kind's chance is its weight over the total.
   */
  function SelectChaosType(w: Weights, r: real): (k: ChaosKind)
    ensures w.delayWeight >= 0.0 && w.errorWeight >= 0.0 && w.gibberishWeight >= 0.0 &&
            w.Total() > 0.0 && IsDraw(r) ==>
      && (k == DelayKind <==> r < w.delayWeight / w.Total())
      && (k == ErrorKind <==> w.delayWeight / w.Total() <= r < (w.delayWeight + w.errorWeight) / w.Total())
      && (k == GibberishKind <==> (w.delayWeight + w.errorWeight) / w.Total() <= r)
  {
    var t := w.Total();
    var x := r * t;
    if t > 0.0 then
      ScaledBelow(r, t, w.delayWeight);
      ScaledBelow(r, t, w.delayWeight + w.errorWeight);
      Choose(w, x)
    else Choose(w, x)
  }

  /** The kind a scaled draw `x` in [0, total) falls on. */
  function Choose(w: Weights, x: real): ChaosKind {
    if x < w.delayWeight then DelayKind
    else if x < w.delayWeight + w.errorWeight then ErrorKind
    else GibberishKind
  }

  /** When the weights have a positive total, a kind of weight 0 is never selected. */
  lemma ZeroWeightNeverChosen(w: Weights, r: real)
    requires w.Total() > 0.0 && IsDraw(r)
    ensures w.delayWeight == 0.0 ==> SelectChaosType(w, r) != DelayKind
    ensures w.errorWeight == 0.0 ==> SelectChaosType(w, r) != ErrorKind
    ensures w.gibberishWeight == 0.0 ==> SelectChaosType(w, r) != GibberishKind
  {
    ScaledDrawBounds(r, w.Total());
    if w.gibberishWeight == 0.0 {
      assert r * w.Total() < w.delayWeight + w.errorWeight;
    }
  }

  lemma ScaledBelow(r: real, t: real, a: real)
    requires t > 0.0
    ensures r * t < a <==> r < a / t
  {
    assert (a / t) * t == a;
    if r < a / t {
      assert r * t < (a / t) * t;
    } else {
      assert r * t >= (a / t) * t;
    }
  }

  // ---------------------------------------------------------------------------
  // Outcome construction
  // ---------------------------------------------------------------------------

  /**
   * The delay value of `applyDelay`, `Math.floor(r * (max - min + 1)) + min`
   * (the suspension itself is not modelled). For min <= max it lies in
   * [min, max].
   */
  function DelayFor(min: int, max: int, r: real): (d: int)
    requires IsDraw(r)
    ensures min <= max ==> min <= d <= max
  {
    var d := (r * (max - min + 1) as real).Floor + min;
    if min <= max then
      ScaledDrawBounds(r, (max - min + 1) as real);
      d
    else d
  }

  /** Every delay in [min, max] is produced by some draw, `(k - min) / (max - min + 1)`. */
  lemma DelayReachesEvery(min: int, max: int, k: int)
    requires min <= k <= max
    ensures var r := (k - min) as real / (max - min + 1) as real;
      IsDraw(r) && DelayFor(min, max, r) == k
  {
    var n := max - min + 1;
    PickIndexReachesEvery(k - min, n);
  }

  const UnknownErrorMessage: string := "Unknown chaos error! \U{1F412}❓"

  /** The message pool `generateError` draws from for a status code. */
  function ErrorMessages(code: int): (pool: seq<string>)
    ensures |pool| > 0
  {
    if code == 500 then
      ["Internal Server Error - The monkey broke something! \U{1F412}\U{1F4A5}",
       "Server meltdown courtesy of Chaos Monkey!",
       "OOPS! The monkey pressed the wrong button!"]
    else if code == 503 then
      ["Service Unavailable - Monkey is taking a banana break! \U{1F34C}",
       "The monkeys are on strike!",
       "Service temporarily monkeyed with!"]
    else if code == 502 then
      ["Bad Gateway - The monkey ate the router! \U{1F412}\U{1F50C}",
       "Gateway got monkey-slapped!",
       "Network chaos initiated!"]
    else if code == 429 then
      ["Too Many Requests - The monkey is tired! \U{1F634}",
       "Rate limit exceeded by monkey business!",
       "Slow down, the monkey can't keep up!"]
    else
      [UnknownErrorMessage]
  }

  /**
   * `generateError`: one draw picks the status code among `errorCodes`,
   * another picks the message from that code's pool.
   */
  function GenerateError(codes: seq<int>, codeDraw: real, messageDraw: real): (o: Outcome)
    requires |codes| > 0 && IsDraw(codeDraw) && IsDraw(messageDraw)
    ensures o.Error?
    ensures o.statusCode in codes
    ensures o.message in ErrorMessages(o.statusCode)
    ensures o.statusCode !in {500, 503, 502, 429} ==> o.message == UnknownErrorMessage
  {
    var code := codes[PickIndex(codeDraw, |codes|)];
    var pool := ErrorMessages(code);
    Error(code, pool[PickIndex(messageDraw, |pool|)])
  }

  /** Every configured code is returned for some code draw. */
  lemma EveryErrorCodeReachable(codes: seq<int>, i: nat, messageDraw: real)
    requires i < |codes| && IsDraw(messageDraw)
    ensures IsDraw(i as real / |codes| as real)
    ensures GenerateError(codes, i as real / |codes| as real, messageDraw).statusCode == codes[i]
  {
    PickIndexReachesEvery(i, |codes|);
  }

  const GibberishTypes: seq<string> := ["json", "text", "html", "xml"]

  /** `getContentType(type)`: the media type of a gibberish kind, text/plain for anything else. */
  function ContentTypeOf(t: string): (ct: string)
    ensures ct in {"application/json", "text/html", "application/xml", "text/plain"}
    ensures t !in GibberishTypes ==> ct == "text/plain"
  {
    if t == "json" then "application/json"
    else if t == "html" then "text/html"
    else if t == "xml" then "application/xml"
    else "text/plain"
  }

  /** The four gibberish kinds have four distinct media types. */
  lemma ContentTypeIdentifiesKind(t1: string, t2: string)
    requires t1 in GibberishTypes && t2 in GibberishTypes
    requires ContentTypeOf(t1) == ContentTypeOf(t2)
    ensures t1 == t2
  {
  }

  /** `generateGibberish`: one draw picks the kind; its body text is not modelled. */
  function GenerateGibberish(typeDraw: real): (o: Outcome)
    requires IsDraw(typeDraw)
    ensures o.Gibberish?
    ensures o.gibberishType in GibberishTypes
    ensures o.contentType == ContentTypeOf(o.gibberishType)
  {
    var t := GibberishTypes[PickIndex(typeDraw, |GibberishTypes|)];
    Gibberish(t, ContentTypeOf(t))
  }

  /** Each of the four kinds is produced by some draw, the draw `i / 4`. */
  lemma EveryGibberishTypeReachable(i: nat)
    requires i < |GibberishTypes|
    ensures IsDraw(i as real / 4.0)
    ensures GenerateGibberish(i as real / 4.0).gibberishType == GibberishTypes[i]
  {
    PickIndexReachesEvery(i, 4);
  }

  // ---------------------------------------------------------------------------
  // applyChaos
  // ---------------------------------------------------------------------------

  /**
   * The draws one `applyChaos` call may consume: the probability gate, the
   * kind selection, and the two draws the chosen outcome uses (the delay, or
   * code and message, or gibberish kind).
   */
  datatype ChaosDraws = ChaosDraws(gate: real, kind: real, pick: real, detail: real)

  predicate ValidDraws(d: ChaosDraws) {
    IsDraw(d.gate) && IsDraw(d.kind) && IsDraw(d.pick) && IsDraw(d.detail)
  }

  /**
   * What the engine reads without checking: a delay range with two ends and
   * at least one error code (otherwise the source computes NaN or undefined).
   */
  predicate EngineReady(c: Config) {
    |c.delayRange| >= 2 && |c.errorCodes| > 0
  }

  predicate OfKind(o: Outcome, k: ChaosKind) {
    match k
    case DelayKind => o.Delay?
    case ErrorKind => o.Error?
    case GibberishKind => o.Gibberish?
  }

  /**
   * `executeChaos(chaosType)`: builds the outcome of the selected kind, with
   * the guarantees of the builder that made it.
   */
  function ExecuteChaos(c: Config, k: ChaosKind, d: ChaosDraws): (o: Outcome)
    requires EngineReady(c) && ValidDraws(d)
    ensures OfKind(o, k)
    ensures o.Delay? && c.delayRange[0] <= c.delayRange[1] ==> c.delayRange[0] <= o.delay <= c.delayRange[1]
    ensures o.Error? ==> o.statusCode in c.errorCodes && o.message in ErrorMessages(o.statusCode)
    ensures o.Gibberish? ==> o.gibberishType in GibberishTypes && o.contentType == ContentTypeOf(o.gibberishType)
  {
    match k
    case DelayKind => Delay(DelayFor(c.delayRange[0], c.delayRange[1], d.pick))
    case ErrorKind => GenerateError(c.errorCodes, d.pick, d.detail)
    case GibberishKind => GenerateGibberish(d.pick)
  }

  datatype Applied = Applied(outcome: Outcome, stats: Stats)

  /**
   * `applyChaos(context)`: counts the request, then either skips (outcome
   * `none`) or applies the selected intervention and records it.
   */
  function ApplyChaos(c: Config, s: Stats, path: string, now: int, d: ChaosDraws,
                      regexTest: (string, string) -> bool): (a: Applied)
    requires EngineReady(c) && ValidDraws(d)
    ensures a.stats.totalRequests == s.totalRequests + 1
    ensures a.stats.startTime == s.startTime
    ensures a.outcome.NoChaos? <==> !ShouldApplyChaos(c, path, now, d.gate, regexTest)
    ensures a.outcome.NoChaos? ==> a.stats == CountRequest(s)
    ensures !a.outcome.NoChaos? ==> OfKind(a.outcome, SelectChaosType(c.chaosWeights, d.kind))
    ensures a.outcome.Delay? && c.delayRange[0] <= c.delayRange[1] ==>
              c.delayRange[0] <= a.outcome.delay <= c.delayRange[1]
    ensures a.outcome.Error? ==> a.outcome.statusCode in c.errorCodes
    ensures a.outcome.Error? ==> a.outcome.message in ErrorMessages(a.outcome.statusCode)
    ensures a.outcome.Gibberish? ==> a.outcome.gibberishType in GibberishTypes
    ensures a.outcome.Gibberish? ==> a.outcome.contentType == ContentTypeOf(a.outcome.gibberishType)
    ensures Interventions(a.stats) == Interventions(s) + (if a.outcome.NoChaos? then 0 else 1)
    ensures DelaySum(a.stats) == DelaySum(s) + (if a.outcome.Delay? then a.outcome.delay as real else 0.0)
    ensures a.stats.delayedRequests == s.delayedRequests + (if a.outcome.Delay? then 1 else 0)
    ensures a.stats.errorRequests == s.errorRequests + (if a.outcome.Error? then 1 else 0)
    ensures a.stats.gibberishRequests == s.gibberishRequests + (if a.outcome.Gibberish? then 1 else 0)
    ensures !a.outcome.Delay? ==> a.stats.averageDelay == s.averageDelay
    ensures Consistent(s) ==> Consistent(a.stats)
  {
    var counted := CountRequest(s);
    if !ShouldApplyChaos(c, path, now, d.gate, regexTest) then
      Applied(NoChaos, counted)
    else
      var o := ExecuteChaos(c, SelectChaosType(c.chaosWeights, d.kind), d);
      Applied(o, UpdateStats(counted, o))
  }

  /**
   * Once the gates pass, the draws decide the outcome end to end: when delay
   * is selected, every delay in range is what `applyChaos` returns for some
   * `pick` draw.
   */
  lemma ApplyChaosReachesEveryDelay(c: Config, s: Stats, path: string, now: int, d: ChaosDraws,
                                    regexTest: (string, string) -> bool, k: int)
    requires EngineReady(c) && ValidDraws(d)
    requires ShouldApplyChaos(c, path, now, d.gate, regexTest)
    requires SelectChaosType(c.chaosWeights, d.kind) == DelayKind
    requires c.delayRange[0] <= k <= c.delayRange[1]
    ensures var p := (k - c.delayRange[0]) as real / (c.delayRange[1] - c.delayRange[0] + 1) as real;
      IsDraw(p) && ApplyChaos(c, s, path, now, d.(pick := p), regexTest).outcome == Delay(k)
  {
    var p := (k - c.delayRange[0]) as real / (c.delayRange[1] - c.delayRange[0] + 1) as real;
    DelayReachesEvery(c.delayRange[0], c.delayRange[1], k);
    AppliedIsExecuted(c, s, path, now, d.(pick := p), regexTest);
  }

  /** When error is selected, every configured status code comes out for some `pick` draw. */
  lemma ApplyChaosReachesEveryCode(c: Config, s: Stats, path: string, now: int, d: ChaosDraws,
                                   regexTest: (string, string) -> bool, i: nat)
    requires EngineReady(c) && ValidDraws(d)
    requires ShouldApplyChaos(c, path, now, d.gate, regexTest)
    requires SelectChaosType(c.chaosWeights, d.kind) == ErrorKind
    requires i < |c.errorCodes|
    ensures var p := i as real / |c.errorCodes| as real;
      IsDraw(p) && ApplyChaos(c, s, path, now, d.(pick := p), regexTest).outcome.statusCode == c.errorCodes[i]
  {
    var p := i as real / |c.errorCodes| as real;
    EveryErrorCodeReachable(c.errorCodes, i, d.detail);
    AppliedIsExecuted(c, s, path, now, d.(pick := p), regexTest);
  }

  /** When gibberish is selected, each of the four kinds comes out for some `pick` draw. */
  lemma ApplyChaosReachesEveryGibberish(c: Config, s: Stats, path: string, now: int, d: ChaosDraws,
                                        regexTest: (string, string) -> bool, i: nat)
    requires EngineReady(c) && ValidDraws(d)
    requires ShouldApplyChaos(c, path, now, d.gate, regexTest)
    requires SelectChaosType(c.chaosWeights, d.kind) == GibberishKind
    requires i < |GibberishTypes|
    ensures IsDraw(i as real / 4.0)
    ensures ApplyChaos(c, s, path, now, d.(pick := i as real / 4.0), regexTest).outcome.gibberishType == GibberishTypes[i]
  {
    EveryGibberishTypeReachable(i);
    AppliedIsExecuted(c, s, path, now, d.(pick := i as real / 4.0), regexTest);
  }

  /** When the gates pass, `applyChaos` returns what `executeChaos` builds for the selected kind. */
  lemma AppliedIsExecuted(c: Config, s: Stats, path: string, now: int, d: ChaosDraws,
                          regexTest: (string, string) -> bool)
    requires EngineReady(c) && ValidDraws(d)
    requires ShouldApplyChaos(c, path, now, d.gate, regexTest)
    ensures ApplyChaos(c, s, path, now, d, regexTest).outcome == ExecuteChaos(c, SelectChaosType(c.chaosWeights, d.kind), d)
  {
  }

  /** Probability 1 with no route or time restriction: no request is ever skipped. */
  lemma CertainChaosNeverSkips(c: Config, s: Stats, path: string, now: int, d: ChaosDraws,
                               regexTest: (string, string) -> bool)
    requires EngineReady(c) && ValidDraws(d)
    requires c.probability == 1.0
    requires c.enabledRoutes.None? && c.disabledRoutes.None? && c.timeWindows.None?
    ensures !ApplyChaos(c, s, path, now, d, regexTest).outcome.NoChaos?
  {
  }

  /** Probability 0 skips every request whose gate draw is not exactly 0. */
  lemma ZeroProbabilitySkips(c: Config, s: Stats, path: string, now: int, d: ChaosDraws,
                             regexTest: (string, string) -> bool)
    requires EngineReady(c) && ValidDraws(d)
    requires c.probability == 0.0 && d.gate > 0.0
    ensures ApplyChaos(c, s, path, now, d, regexTest).outcome.NoChaos?
  {
  }

  /** Probability 0 and the gate draw 0 with no other restriction: the request is NOT skipped. */
  lemma ZeroProbabilityZeroDrawIntervenes(c: Config, s: Stats, path: string, now: int, d: ChaosDraws,
                                          regexTest: (string, string) -> bool)
    requires EngineReady(c) && ValidDraws(d)
    requires c.probability == 0.0 && d.gate == 0.0
    requires c.enabledRoutes.None? && c.disabledRoutes.None? && c.timeWindows.None?
    ensures !ApplyChaos(c, s, path, now, d, regexTest).outcome.NoChaos?
  {
  }

  /**
   * Probability 1, weights {100, 0, 0} and range [500, 500] on fresh
   * statistics: one delay of 500 ms is recorded and the average is 500.
   */
  lemma ForcedDelayExample(t0: int, path: string, now: int, d: ChaosDraws,
                           regexTest: (string, string) -> bool)
    requires ValidDraws(d)
    ensures var c := Config(1.0, [500, 500], [500], Weights(100.0, 0.0, 0.0), None, None, None, false);
      var a := ApplyChaos(c, ResetStats(t0), path, now, d, regexTest);
      && a.outcome == Delay(500)
      && a.stats.delayedRequests == 1
      && a.stats.averageDelay == 500.0
      && GetStats(a.stats, t0).chaosRate == 1.0
  {
    var c := Config(1.0, [500, 500], [500], Weights(100.0, 0.0, 0.0), None, None, None, false);
    ScaledDrawBounds(d.kind, 100.0);
    assert SelectChaosType(c.chaosWeights, d.kind) == DelayKind;
  }

  // ---------------------------------------------------------------------------
  // A sequence of requests
  // ---------------------------------------------------------------------------

  /** One request to the engine with the clock reading and draws it sees. */
  datatype Call = Call(path: string, now: int, draws: ChaosDraws)

  datatype Served = Served(outcomes: seq<Outcome>, stats: Stats)

  predicate ValidCalls(calls: seq<Call>) {
    forall i :: 0 <= i < |calls| ==> ValidDraws(calls[i].draws)
  }

  /** Successive `applyChaos` calls on one engine, in order. */
  function Serve(c: Config, s: Stats, calls: seq<Call>, regexTest: (string, string) -> bool): (r: Served)
    requires EngineReady(c) && ValidCalls(calls)
    ensures |r.outcomes| == |calls|
    decreases |calls|
  {
    if |calls| == 0 then Served([], s)
    else
      var a := ApplyChaos(c, s, calls[0].path, calls[0].now, calls[0].draws, regexTest);
      var rest := Serve(c, a.stats, calls[1..], regexTest);
      Served([a.outcome] + rest.outcomes, rest.stats)
  }

  /** The delays among a sequence of outcomes, in order. */
  function DelaysOf(outs: seq<Outcome>): seq<int> {
    if |outs| == 0 then []
    else (if outs[0].Delay? then [outs[0].delay] else []) + DelaysOf(outs[1..])
  }

  /** The number of interventions (non-`none` outcomes) in a sequence. */
  function InterventionCount(outs: seq<Outcome>): nat {
    if |outs| == 0 then 0
    else (if outs[0].NoChaos? then 0 else 1) + InterventionCount(outs[1..])
  }

  /** The number of outcomes of kind `k` in a sequence. */
  function KindCount(outs: seq<Outcome>, k: ChaosKind): nat {
    if |outs| == 0 then 0
    else (if OfKind(outs[0], k) then 1 else 0) + KindCount(outs[1..], k)
  }

  function Sum(xs: seq<int>): int {
    if |xs| == 0 then 0 else xs[0] + Sum(xs[1..])
  }

  /**
   * Over any run of calls, each finishing before the next starts: every
   * call is counted, the interventions and delays are recorded, the counter
   * invariant is kept, and the running delay sum grows by exactly the delays
   * produced.
   */
  lemma {:induction false} ServeAccounting(c: Config, s: Stats, calls: seq<Call>,
                                          regexTest: (string, string) -> bool)
    requires EngineReady(c) && ValidCalls(calls)
    ensures var r := Serve(c, s, calls, regexTest);
      && r.stats.totalRequests == s.totalRequests + |calls|
      && Interventions(r.stats) == Interventions(s) + InterventionCount(r.outcomes)
      && r.stats.delayedRequests == s.delayedRequests + |DelaysOf(r.outcomes)|
      && DelaySum(r.stats) == DelaySum(s) + Sum(DelaysOf(r.outcomes)) as real
      && (Consistent(s) ==> Consistent(r.stats))
    decreases |calls|
  {
    if |calls| > 0 {
      var a := ApplyChaos(c, s, calls[0].path, calls[0].now, calls[0].draws, regexTest);
      var tail := calls[1..];
      assert ValidCalls(tail) by {
        forall i | 0 <= i < |tail| ensures ValidDraws(tail[i].draws) {
          assert tail[i] == calls[i + 1];
        }
      }
      ServeAccounting(c, a.stats, tail, regexTest);
      var rest := Serve(c, a.stats, tail, regexTest);
      var outs := [a.outcome] + rest.outcomes;
      assert Serve(c, s, calls, regexTest) == Served(outs, rest.stats);
      assert outs[1..] == rest.outcomes;
      var head := if a.outcome.Delay? then [a.outcome.delay] else [];
      assert DelaysOf(outs) == head + DelaysOf(rest.outcomes);
      assert Sum(head + DelaysOf(rest.outcomes)) == Sum(head) + Sum(DelaysOf(rest.outcomes)) by {
        if a.outcome.Delay? {
          assert (head + DelaysOf(rest.outcomes))[1..] == DelaysOf(rest.outcomes);
        } else {
          assert head + DelaysOf(rest.outcomes) == DelaysOf(rest.outcomes);
        }
      }
      assert InterventionCount(outs) == (if a.outcome.NoChaos? then 0 else 1) + InterventionCount(rest.outcomes);
    }
  }

  /** Over any run of calls, each finishing before the next starts, each kind counter grows by the outcomes of its kind. */
  lemma {:induction false} ServeKindCounts(c: Config, s: Stats, calls: seq<Call>,
                                          regexTest: (string, string) -> bool)
    requires EngineReady(c) && ValidCalls(calls)
    ensures var r := Serve(c, s, calls, regexTest);
      && r.stats.errorRequests == s.errorRequests + KindCount(r.outcomes, ErrorKind)
      && r.stats.gibberishRequests == s.gibberishRequests + KindCount(r.outcomes, GibberishKind)
    decreases |calls|
  {
    if |calls| > 0 {
      var a := ApplyChaos(c, s, calls[0].path, calls[0].now, calls[0].draws, regexTest);
      var tail := calls[1..];
      assert ValidCalls(tail) by {
        forall i | 0 <= i < |tail| ensures ValidDraws(tail[i].draws) {
          assert tail[i] == calls[i + 1];
        }
      }
      ServeKindCounts(c, a.stats, tail, regexTest);
      var rest := Serve(c, a.stats, tail, regexTest);
      var outs := [a.outcome] + rest.outcomes;
      assert Serve(c, s, calls, regexTest) == Served(outs, rest.stats);
      assert outs[1..] == rest.outcomes;
    }
  }

  /**
   * From freshly reset statistics, after any run that produced at least one
   * delay, `averageDelay` is the arithmetic mean of the delays produced.
   */
  lemma AverageDelayIsMean(c: Config, t0: int, calls: seq<Call>, regexTest: (string, string) -> bool)
    requires EngineReady(c) && ValidCalls(calls)
    ensures var r := Serve(c, ResetStats(t0), calls, regexTest);
      && r.stats.delayedRequests == |DelaysOf(r.outcomes)|
      && (|DelaysOf(r.outcomes)| > 0 ==>
            r.stats.averageDelay == Sum(DelaysOf(r.outcomes)) as real / |DelaysOf(r.outcomes)| as real)
  {
    var s0 := ResetStats(t0);
    ServeAccounting(c, s0, calls, regexTest);
    var r := Serve(c, s0, calls, regexTest);
    var ds := DelaysOf(r.outcomes);
    assert DelaySum(s0) == 0.0;
    assert DelaySum(r.stats) == Sum(ds) as real;
    if |ds| > 0 {
      AverageFromDelaySum(r.stats, Sum(ds) as real);
    }
  }

  /**
   * From freshly reset statistics, `chaosRate` reports the fraction of the
   * calls made so far that received an intervention, a value in [0, 1].
   */
  lemma ChaosRateIsInterventionFraction(c: Config, t0: int, now: int, calls: seq<Call>,
                                        regexTest: (string, string) -> bool)
    requires EngineReady(c) && ValidCalls(calls) && |calls| > 0
    ensures var r := Serve(c, ResetStats(t0), calls, regexTest);
      && GetStats(r.stats, now).chaosRate == InterventionCount(r.outcomes) as real / |calls| as real
      && 0.0 <= GetStats(r.stats, now).chaosRate <= 1.0
  {
    var s0 := ResetStats(t0);
    ServeAccounting(c, s0, calls, regexTest);
    var r := Serve(c, s0, calls, regexTest);
    assert r.stats.totalRequests == |calls|;
    assert Interventions(r.stats) == InterventionCount(r.outcomes);
    RateFromCounts(r.stats, now);
  }

  lemma AverageFromDelaySum(s: Stats, total: real)
    requires s.delayedRequests > 0 && DelaySum(s) == total
    ensures s.averageDelay == total / s.delayedRequests as real
  {
  }

  lemma RateFromCounts(s: Stats, now: int)
    requires s.totalRequests > 0
    ensures GetStats(s, now).chaosRate == Interventions(s) as real / s.totalRequests as real
  {
    var snap := GetStats(s, now);
    assert snap.chaosRate * s.totalRequests as real == Interventions(s) as real;
  }
}

=== FILE: chaos_levels.dfy ===
/** The named presets a configuration can start from (`options.chaos`). */
module ChaosLevels {
  import opened Wrappers
  import opened Types

  /** Gentle chaos for development. */
  const Mild: Config :=
    Config(0.1, [100, 1000], [500], Weights(70.0, 20.0, 10.0), None, None, None, true)

  /** Moderate chaos for testing. */
  const Wild: Config :=
    Config(0.3, [500, 3000], [500, 503, 502], Weights(50.0, 30.0, 20.0), None, None, None, true)

  /** Extreme chaos for stress testing. */
  const ApePocalypse: Config :=
    Config(0.7, [1000, 10000], [500, 503, 502, 429, 404], Weights(40.0, 40.0, 20.0), None, None, None, true)

  /** A starting point for fine-tuned control. */
  const Custom: Config :=
    Config(0.2, [200, 2000], [500, 503], Weights(60.0, 25.0, 15.0), None, None, None, false)

  /** The whole day, `00:00` to `23:59`. */
  const AllDay: TimeWindow := TimeWindow(ClockMinutes(0, 0), ClockMinutes(23, 59))

  /** Chaos restricted to a time window. */
  const Weekend: Config :=
    Config(0.5, [2000, 8000], [503, 502], Weights(30.0, 50.0, 20.0), None, None, Some([AllDay]), true)

  /** Network-like failures. */
  const Network: Config :=
    Config(0.4, [3000, 15000], [502, 503, 504], Weights(60.0, 35.0, 5.0), None, None, None, true)

  /** `chaosLevels`: the preset table by name. */
  const Levels: map<string, Config> := map[
    "mild" := Mild,
    "wild" := Wild,
    "ape-pocalypse" := ApePocalypse,
    "custom" := Custom,
    "weekend" := Weekend,
    "network" := Network
  ]

  /** Every preset's three weights are non-negative and sum to 100. */
  lemma PresetWeightsSumTo100(name: string)
    requires name in Levels
    ensures Levels[name].chaosWeights.Total() == 100.0
    ensures Levels[name].chaosWeights.delayWeight >= 0.0
    ensures Levels[name].chaosWeights.errorWeight >= 0.0
    ensures Levels[name].chaosWeights.gibberishWeight >= 0.0
  {
  }

  /** Only `weekend` restricts by time, and it has the single window 00:00-23:59; no preset restricts routes. */
  lemma OnlyWeekendHasWindows(name: string)
    requires name in Levels
    ensures Levels[name].timeWindows.Some? <==> name == "weekend"
    ensures name == "weekend" ==> Levels[name].timeWindows == Some([AllDay])
    ensures Levels[name].enabledRoutes.None? && Levels[name].disabledRoutes.None?
  {
  }
}

=== FILE: custom_chaos.dfy ===
/**
 * The custom-chaos helpers: the `createCustomChaos` wrapper and the three
 * predefined behaviours that compute a value (response corruption, response
 * inflation, intermittent failure). The ones that only burn memory, CPU or
 * wall-clock time are outside the model.
 */
module CustomChaos {
  import opened Wrappers
  import opened Random

  /**
   * The response a custom behaviour receives. JavaScript values are seen
   * through `typeof`: strings, objects (their own enumerable keys; arrays
   * appear with their index keys), `null` (whose `typeof` is also
   * 'object'), and anything else by its string rendering
   * (`undefined`, numbers, booleans, functions).
   */
  datatype Payload =
    | Str(text: string)
    | Obj(fields: map<string, Payload>)
    | Null
    | Other(rendering: string)

  /** What a behaviour returns: `{ type: 'none' }` or one of its chaos results. */
  datatype CustomResult =
    | NoChaos
    | Corruption(content: string, message: string)
      /** `inflated` is the new `content`; `sizeMessage` is the byte count the text branch reports; the object branch reports none. */
    | Inflation(inflated: Payload, sizeMessage: Option<nat>)
    | IntermittentError(statusCode: int, message: string)

  /** `{ type: 'custom', execute, options }`. */
  datatype CustomChaos<F> = CustomChaos(kind: string, execute: F, options: map<string, Payload>)

  /** `createCustomChaos(chaosFunction, options = {})`. */
  function CreateCustomChaos<F>(execute: F, options: Option<map<string, Payload>>): (c: CustomChaos<F>)
    ensures c.kind == "custom"
    ensures c.execute == execute
    ensures options.Some? ==> c.options == options.value
    ensures options.None? ==> c.options == map[]
  {
    CustomChaos("custom", execute, options.GetOr(map[]))
  }

  // ---------------------------------------------------------------------
  // corruptResponse
  // ---------------------------------------------------------------------

  /** Each character is replaced with this probability. */
  const CorruptionRate: real := 0.1

  const CorruptionMessage: string := "Chaos Monkey corrupted response data \U{1F412}\U{1F527}"

  /**
   * The draws spent on one character: `hit` decides whether it is
   * replaced, `code` picks the replacement (and is only drawn on a hit).
   */
  datatype CharDraw = CharDraw(hit: real, code: real)

  predicate IsHit(d: CharDraw) {
    d.hit < CorruptionRate
  }

  /** `String.fromCharCode(Math.floor(Math.random() * 126) + 33)`: a code point from 33 to 158. */
  function CorruptChar(code: real): (c: char)
    requires IsDraw(code)
    ensures 33 <= c as int <= 158
  {
    (PickIndex(code, 126) + 33) as char
  }

  /** The replacement for every code 33..158 is reachable. */
  lemma EveryCorruptCharReachable(k: int)
    requires 33 <= k <= 158
    ensures IsDraw((k - 33) as real / 126.0)
    ensures CorruptChar((k - 33) as real / 126.0) as int == k
  {
    PickIndexReachesEvery(k - 33, 126);
  }

  /**
   * `corruptResponse`: a string keeps its length, and each character is
   * either left alone or, when its draw hits, replaced by the character its
   * code draw selects. Anything that is not a string yields no chaos.
   */
  method CorruptResponse(original: Payload, draws: seq<CharDraw>) returns (r: CustomResult)
    requires original.Str? ==> |draws| == |original.text|
    requires forall i :: 0 <= i < |draws| ==> IsDraw(draws[i].hit) && IsDraw(draws[i].code)
    ensures !original.Str? <==> r.NoChaos?
    ensures original.Str? ==> r.Corruption? && r.message == CorruptionMessage
    ensures original.Str? ==> |r.content| == |original.text|
    ensures original.Str? ==> forall i :: 0 <= i < |original.text| && IsHit(draws[i]) ==>
      r.content[i] == CorruptChar(draws[i].code)
    ensures original.Str? ==> forall i :: 0 <= i < |original.text| && !IsHit(draws[i]) ==>
      r.content[i] == original.text[i]
    ensures original.Str? && (forall i :: 0 <= i < |draws| ==> !IsHit(draws[i])) ==>
      r.content == original.text
  {
    if !original.Str? {
      return NoChaos;
    }
    var chars := original.text;
    var i := 0;
    while i < |chars|
      invariant 0 <= i <= |chars| == |original.text|
      invariant forall j :: 0 <= j < i && IsHit(draws[j]) ==> chars[j] == CorruptChar(draws[j].code)
      invariant forall j :: 0 <= j < i && !IsHit(draws[j]) ==> chars[j] == original.text[j]
      invariant forall j :: i <= j < |chars| ==> chars[j] == original.text[j]
    {
      if draws[i].hit < CorruptionRate {
        chars := chars[i := CorruptChar(draws[i].code)];
      }
      i := i + 1;
    }
    r := Corruption(chars, CorruptionMessage);
  }

  // ---------------------------------------------------------------------
  // inflateResponse
  // ---------------------------------------------------------------------

  const PaddingUnit: string := "CHAOS_MONKEY_PADDING_"

  const InflationMessage: string := "Response inflated by Chaos Monkey \U{1F412}\U{1F388}"

  /** `Math.floor(Math.random() * 100000) + 10000`. */
  function InflationSize(r: real): (n: nat)
    requires IsDraw(r)
    ensures 10000 <= n < 110000
  {
    PickIndex(r, 100000) + 10000
  }

  /** `s.repeat(n)`: `n` copies of `s`, so `n * |s|` characters. */
  function Repeat(s: string, n: nat): (t: string)
    ensures |t| == n * |s|
  {
    if n == 0 then "" else s + Repeat(s, n - 1)
  }

  /** Copy `k` of the unit inside a repetition starts at `k * |s|`. */
  lemma {:induction false} RepeatContents(s: string, n: nat, k: nat, j: nat)
    requires k < n
    requires j < |s|
    ensures |Repeat(s, n)| == n * |s|
    ensures k * |s| + j < n * |s|
    ensures Repeat(s, n)[k * |s| + j] == s[j]
  {
    assert n * |s| == |s| + (n - 1) * |s|;
    if k > 0 {
      RepeatContents(s, n - 1, k - 1, j);
      assert k * |s| + j == |s| + ((k - 1) * |s| + j);
    }
  }

  /** The padding for an inflation size: `PaddingUnit` repeated `size / 20` times. */
  function Padding(size: nat): string {
    Repeat(PaddingUnit, size / 20)
  }

  /** For every size `InflationSize` can return, the padding is 10500 to 115479 characters. */
  lemma PaddingLength(size: nat)
    requires 10000 <= size < 110000
    ensures |Padding(size)| == 21 * (size / 20)
    ensures 10500 <= |Padding(size)| <= 115479
  {
  }

  /** The own keys an object spread `{...p}` copies: none for `null`. */
  function SpreadFields(p: Payload): map<string, Payload>
    requires p.Obj? || p.Null?
  {
    if p.Obj? then p.fields else map[]
  }

  /** `originalResponse + ''` for a value that is not an object. */
  function Rendering(p: Payload): string
    requires p.Str? || p.Other?
  {
    if p.Str? then p.text else p.rendering
  }

  /**
   * `inflateResponse`: an object (or `null`) keeps its own keys and gains
   * `chaosPadding` and `chaosMessage`; anything else is rendered as text and
   * followed by a blank line and the padding.
   */
  function InflateResponse(original: Payload, r: real): (res: CustomResult)
    requires IsDraw(r)
    ensures res.Inflation?
    ensures (original.Obj? || original.Null?) ==>
      && res.inflated.Obj?
      && res.sizeMessage.None?
      && res.inflated.fields.Keys == SpreadFields(original).Keys + {"chaosPadding", "chaosMessage"}
      && res.inflated.fields["chaosPadding"] == Str(Padding(InflationSize(r)))
      && res.inflated.fields["chaosMessage"] == Str(InflationMessage)
      && (forall k :: k in SpreadFields(original) && k != "chaosPadding" && k != "chaosMessage" ==>
            res.inflated.fields[k] == SpreadFields(original)[k])
    ensures (original.Str? || original.Other?) ==>
      && res.inflated.Str?
      && res.sizeMessage == Some(InflationSize(r))
      && |res.inflated.text| == |Rendering(original)| + 2 + |Padding(InflationSize(r))|
      && res.inflated.text[..|Rendering(original)|] == Rendering(original)
      && res.inflated.text[|Rendering(original)|..|Rendering(original)| + 2] == "\n\n"
      && res.inflated.text[|Rendering(original)| + 2..] == Padding(InflationSize(r))
  {
    var size := InflationSize(r);
    var padding := Padding(size);
    if original.Obj? || original.Null? then
      Inflation(Obj(SpreadFields(original)["chaosPadding" := Str(padding)]["chaosMessage" := Str(InflationMessage)]), None)
    else
      var text := Rendering(original) + "\n\n" + padding;
      assert text[..|Rendering(original)|] == Rendering(original);
      assert text[|Rendering(original)|..|Rendering(original)| + 2] == "\n\n";
      assert text[|Rendering(original)| + 2..] == padding;
      Inflation(Str(text), Some(size))
  }

  /** Character `i` of the padding is the unit's character at `i mod 21`. */
  lemma PaddingAt(size: nat, i: nat)
    requires i < |Padding(size)|
    ensures Padding(size)[i] == PaddingUnit[i % 21]
  {
    var n := size / 20;
    var k, j := i / 21, i % 21;
    assert i == k * 21 + j;
    assert |Padding(size)| == n * 21;
    RepeatContents(PaddingUnit, n, k, j);
  }

  lemma SuffixAt(text: string, m: nat, suffix: string, i: nat)
    requires m <= |text| && text[m..] == suffix && i < |suffix|
    ensures m + i < |text| && text[m + i] == suffix[i]
  {
    assert text[m..][i] == text[m + i];
  }

  /** Everything after the blank line of an inflated text is copies of the padding unit. */
  lemma InflatedTailIsPadding(original: Payload, r: real, i: nat)
    requires IsDraw(r)
    requires original.Str? || original.Other?
    requires i < |Padding(InflationSize(r))|
    ensures InflateResponse(original, r).inflated.text[|Rendering(original)| + 2 + i] == PaddingUnit[i % 21]
  {
    var size := InflationSize(r);
    var res := InflateResponse(original, r);
    SuffixAt(res.inflated.text, |Rendering(original)| + 2, Padding(size), i);
    PaddingAt(size, i);
  }

  /** Inflating a text always adds between 10502 and 115481 characters. */
  lemma InflationGrowth(original: Payload, r: real)
    requires IsDraw(r)
    requires original.Str? || original.Other?
    ensures |Rendering(original)| + 10502 <= |InflateResponse(original, r).inflated.text|
    ensures |InflateResponse(original, r).inflated.text| <= |Rendering(original)| + 115481
  {
    PaddingLength(InflationSize(r));
  }

  // ---------------------------------------------------------------------
  // intermittentFailure
  // ---------------------------------------------------------------------

  /** Which milliseconds fail, by `Date.now() % 5`. */
  const FailurePattern: seq<bool> := [true, false, true, true, false]

  const IntermittentMessage: string := "Intermittent failure - Chaos Monkey is being moody \U{1F412}\U{1F624}"

  /** `intermittentFailure` when `Date.now()` is `nowMs`: a 503 on three residues out of five. */
  function IntermittentFailure(nowMs: nat): (r: CustomResult)
    ensures r.IntermittentError? <==> nowMs % 5 in {0, 2, 3}
    ensures r.IntermittentError? ==> r.statusCode == 503 && r.message == IntermittentMessage
    ensures !r.IntermittentError? ==> r.NoChaos?
  {
    if FailurePattern[nowMs % |FailurePattern|] then
      IntermittentError(503, IntermittentMessage)
    else
      NoChaos
  }

  /** How many of the `n` milliseconds starting at `start` fail. */
  function FailuresIn(start: nat, n: nat): nat
    decreases n
  {
    if n == 0 then 0
    else (if IntermittentFailure(start).IntermittentError? then 1 else 0) + FailuresIn(start + 1, n - 1)
  }

  /** The behaviour repeats every five milliseconds. */
  lemma FailurePeriod(t: nat)
    ensures IntermittentFailure(t + 5) == IntermittentFailure(t)
  {
    assert (t + 5) % 5 == t % 5;
  }

  /** Any five consecutive milliseconds hold exactly three failures. */
  lemma ThreeInEveryFive(start: nat)
    ensures FailuresIn(start, 5) == 3
  {
    var s := start % 5;
    assert (start + 1) % 5 == (s + 1) % 5;
    assert (start + 2) % 5 == (s + 2) % 5;
    assert (start + 3) % 5 == (s + 3) % 5;
    assert (start + 4) % 5 == (s + 4) % 5;
    assert FailuresIn(start + 4, 1) == (if (s + 4) % 5 in {0, 2, 3} then 1 else 0);
    assert FailuresIn(start + 3, 2) == (if (s + 3) % 5 in {0, 2, 3} then 1 else 0) + FailuresIn(start + 4, 1);
    assert FailuresIn(start + 2, 3) == (if (s + 2) % 5 in {0, 2, 3} then 1 else 0) + FailuresIn(start + 3, 2);
    assert FailuresIn(start + 1, 4) == (if (s + 1) % 5 in {0, 2, 3} then 1 else 0) + FailuresIn(start + 2, 3);
  }

  lemma {:induction false} FailuresInSplit(start: nat, a: nat, b: nat)
    ensures FailuresIn(start, a + b) == FailuresIn(start, a) + FailuresIn(start + a, b)
    decreases a
  {
    if a > 0 {
      FailuresInSplit(start + 1, a - 1, b);
    }
  }

  /** Over any `5 * k` consecutive milliseconds the failure rate is exactly three in five. */
  lemma {:induction false} FailureRate(start: nat, k: nat)
    ensures FailuresIn(start, 5 * k) == 3 * k
    decreases k
  {
    if k > 0 {
      FailuresInSplit(start, 5, 5 * (k - 1));
      ThreeInEveryFive(start);
      FailureRate(start + 5, k - 1);
    }
  }
}

=== FILE: engine_stats.dfy ===
/**
 * The chaos engine's running statistics: `this.stats`, `updateStats`,
 * `getStats` and `resetStats`. The record is immutable here; every operation
 * returns the new record.
 */
module EngineStats {
  import opened Types

  /** `this.stats`; `startTime` is a millisecond timestamp. */
  datatype Stats = Stats(
    totalRequests: nat,
    delayedRequests: nat,
    errorRequests: nat,
    gibberishRequests: nat,
    averageDelay: real,
    startTime: int)

  /** The number of requests that received an intervention of any kind. */
  function Interventions(s: Stats): nat {
    s.delayedRequests + s.errorRequests + s.gibberishRequests
  }

  /** The invariant the engine keeps: no more interventions than requests. */
  predicate Consistent(s: Stats) {
    Interventions(s) <= s.totalRequests
  }

  /** The running total of all recorded delays, as the average represents it. */
  function DelaySum(s: Stats): real {
    s.averageDelay * s.delayedRequests as real
  }

  /**
   * The statistics of a fresh engine, and what `resetStats` installs: all
   * counters zero, the uptime clock restarted at `now`.
   */
  function ResetStats(now: int): (s: Stats)
    ensures s.totalRequests == 0 && Interventions(s) == 0
    ensures s.averageDelay == 0.0 && s.startTime == now
    ensures Consistent(s)
  {
    Stats(0, 0, 0, 0, 0.0, now)
  }

  /** `this.stats.totalRequests++`, done on every call, before any gate. */
  function CountRequest(s: Stats): (r: Stats)
    ensures r.totalRequests == s.totalRequests + 1
    ensures Interventions(r) == Interventions(s) && DelaySum(r) == DelaySum(s)
    ensures r.delayedRequests == s.delayedRequests && r.startTime == s.startTime
    ensures r.errorRequests == s.errorRequests && r.gibberishRequests == s.gibberishRequests
    ensures r.averageDelay == s.averageDelay
    ensures Consistent(s) ==> Consistent(r)
  {
    s.(totalRequests := s.totalRequests + 1)
  }

  /**
   * `updateStats(result)`: a non-`none` outcome bumps exactly the counter of
   * its kind; a delay also folds its value into the incremental mean.
   */
  function UpdateStats(s: Stats, o: Outcome): (r: Stats)
    ensures r.totalRequests == s.totalRequests && r.startTime == s.startTime
    ensures Interventions(r) == Interventions(s) + (if o.NoChaos? then 0 else 1)
    ensures r.delayedRequests == s.delayedRequests + (if o.Delay? then 1 else 0)
    ensures r.errorRequests == s.errorRequests + (if o.Error? then 1 else 0)
    ensures r.gibberishRequests == s.gibberishRequests + (if o.Gibberish? then 1 else 0)
    ensures DelaySum(r) == DelaySum(s) + (if o.Delay? then o.delay as real else 0.0)
    ensures !o.Delay? ==> r.averageDelay == s.averageDelay
  {
    match o
    case Delay(d) =>
      var n := s.delayedRequests + 1;
      var avg := (s.averageDelay * (n - 1) as real + d as real) / n as real;
      assert avg * n as real == s.averageDelay * (n - 1) as real + d as real;
      s.(delayedRequests := n, averageDelay := avg)
    case Error(_, _) => s.(errorRequests := s.errorRequests + 1)
    case Gibberish(_, _) => s.(gibberishRequests := s.gibberishRequests + 1)
    case NoChaos => s
  }

  /** What `getStats()` returns: the counters plus two derived values. */
  datatype Snapshot = Snapshot(
    totalRequests: nat,
    delayedRequests: nat,
    errorRequests: nat,
    gibberishRequests: nat,
    averageDelay: real,
    startTime: int,
    uptime: int,
    chaosRate: real)

  /**
   * `getStats()` at time `now`: copies every counter, reports the uptime and
   * the fraction of requests that received an intervention (0 before the
   * first request).
   */
  function GetStats(s: Stats, now: int): (r: Snapshot)
    ensures r.totalRequests == s.totalRequests && r.delayedRequests == s.delayedRequests
    ensures r.errorRequests == s.errorRequests && r.gibberishRequests == s.gibberishRequests
    ensures r.averageDelay == s.averageDelay && r.startTime == s.startTime
    ensures r.uptime == now - s.startTime
    ensures s.totalRequests == 0 ==> r.chaosRate == 0.0
    ensures s.totalRequests > 0 ==> r.chaosRate * s.totalRequests as real == Interventions(s) as real
    ensures Consistent(s) ==> 0.0 <= r.chaosRate <= 1.0
  {
    var rate :=
      if s.totalRequests > 0 then
        RateBounds(Interventions(s), s.totalRequests);
        Interventions(s) as real / s.totalRequests as real
      else 0.0;
    Snapshot(s.totalRequests, s.delayedRequests, s.errorRequests, s.gibberishRequests,
             s.averageDelay, s.startTime, now - s.startTime, rate)
  }

  lemma RateBounds(k: nat, n: nat)
    requires n > 0
    ensures (k as real / n as real) * n as real == k as real
    ensures k <= n ==> 0.0 <= k as real / n as real <= 1.0
  {
  }

  /** After a reset, a snapshot reports no requests and a chaos rate of 0. */
  lemma ResetThenSnapshot(resetAt: int, now: int)
    ensures GetStats(ResetStats(resetAt), now).totalRequests == 0
    ensures GetStats(ResetStats(resetAt), now).chaosRate == 0.0
    ensures GetStats(ResetStats(resetAt), now).uptime == now - resetAt
  {
  }

  /**
   * `applyChaos` counts a request before its `await` and records the outcome
   * after it, so a `resetStats` that runs while a delay is pending leaves the
   * late record on the fresh statistics: one delayed request out of none.
   */
  lemma ResetDuringDelayBreaksInvariant(resetAt: int, d: int)
    ensures var late := UpdateStats(ResetStats(resetAt), Delay(d));
      && late.totalRequests == 0
      && late.delayedRequests == 1
      && !Consistent(late)
  {
  }
}

=== FILE: preset_validity.dfy ===
/**
 * Facts that tie the preset table to validation and to the engine: every
 * preset, merged on its own, passes `validateConfig` and is a configuration
 * the engine can run; the `weekend` window covers every minute of the day.
 */
module PresetValidity {
  import opened Wrappers
  import opened Types
  import opened ChaosEngine
  import ChaosLevels
  import Utils

  /** Every preset passes validation without a warning: all its codes are known. */
  lemma PresetPassesValidation(name: string)
    requires name in ChaosLevels.Levels
    ensures Utils.ValidateConfig(ChaosLevels.Levels[name]) == Success([])
    ensures |ChaosLevels.Levels[name].errorCodes| > 0
    ensures 0.0 <= ChaosLevels.Levels[name].probability <= 1.0
    ensures ChaosLevels.Levels[name].delayRange[0] < ChaosLevels.Levels[name].delayRange[1]
  {
    var vs := Utils.ValidErrorCodes;
    assert 404 in vs && 429 in vs && 500 in vs && 502 in vs && 503 in vs && 504 in vs;
  }

  /** `mergeConfig({ chaos: p })` passes `validateConfig` for every preset `p`, and so does the default. */
  lemma MergedPresetPassesValidation(name: string)
    ensures Utils.AcceptableConfig(Utils.MergeConfig(Utils.NoOptions.(chaos := Some(name))))
    ensures EngineReady(Utils.MergeConfig(Utils.NoOptions.(chaos := Some(name))))
  {
    Utils.MergeBaseOnly(name);
    if name in ChaosLevels.Levels {
      PresetPassesValidation(name);
    }
  }

  /** Whatever a configuration `validateConfig` accepts, the engine can run. */
  lemma AcceptedConfigIsEngineReady(c: Config)
    requires Utils.ValidateConfig(c).Success?
    ensures EngineReady(c)
  {
  }

  /** The `weekend` window 00:00-23:59 contains every minute of the day, 0 to 1439. */
  lemma WeekendCoversWholeDay(now: int)
    requires 0 <= now < 24 * 60
    ensures IsInTimeWindow(ChaosLevels.Weekend.timeWindows.value, now)
    ensures TimeGate(ChaosLevels.Weekend, now)
  {
    assert InWindow(ChaosLevels.AllDay, now);
    assert ChaosLevels.Weekend.timeWindows.value[0] == ChaosLevels.AllDay;
  }
}

=== FILE: random.dfy ===
/**
 * Random draws. Every `Math.random()` of the source is a parameter of the
 * model, a real in [0, 1); `Math.floor(Math.random() * n)` becomes `PickIndex`.
 */
module Random {

  /** A value `Math.random()` can return. */
  predicate IsDraw(r: real) {
    0.0 <= r < 1.0
  }

  /** `Math.floor(r * n)`: the index a draw selects among `n` choices. */
  function PickIndex(r: real, n: nat): (i: nat)
    requires IsDraw(r)
    requires n > 0
    ensures i < n
    ensures i as real <= r * n as real < i as real + 1.0
  {
    ScaledDrawBounds(r, n as real);
    (r * n as real).Floor
  }

  lemma ScaledDrawBounds(r: real, t: real)
    requires IsDraw(r)
    requires t > 0.0
    ensures 0.0 <= r * t < t
  {
    assert r * t < 1.0 * t;
  }

  /** Every index is selected by some draw: the draw `i / n` selects `i`. */
  lemma PickIndexReachesEvery(i: nat, n: nat)
    requires i < n
    ensures IsDraw(i as real / n as real)
    ensures PickIndex(i as real / n as real, n) == i
  {
    var r := i as real / n as real;
    assert r * n as real == i as real;
  }
}

=== FILE: types.dfy ===
/**
 * The data the chaos engine works on: its configuration, the request
 * descriptor it reads and the outcome it returns.
 */
module Types {
  import opened Wrappers

  /** `chaosWeights`: relative weights of the three intervention kinds. */
  datatype Weights = Weights(delayWeight: real, errorWeight: real, gibberishWeight: real) {
    function Total(): real {
      delayWeight + errorWeight + gibberishWeight
    }
  }

  /**
   * A route matcher: a string, matched by prefix, or a RegExp, known here
   * only by its source text and tested by a caller-supplied function.
   */
  datatype Route = Prefix(route: string) | Pattern(source: string)

  /** A wall-clock time `HH:MM`, once split into its two numbers, as minutes since midnight. */
  function ClockMinutes(hours: int, minutes: int): int {
    hours * 60 + minutes
  }

  /**
   * One entry of `timeWindows`, `{ start: 'HH:MM', end: 'HH:MM' }`, with
   * both ends already converted to minutes since midnight.
   */
  datatype TimeWindow = TimeWindow(startTime: int, endTime: int)

  /**
   * The merged configuration handed to the engine. `None` stands for a key
   * that is `null` or absent.
   */
  datatype Config = Config(
    probability: real,
    delayRange: seq<int>,
    errorCodes: seq<int>,
    chaosWeights: Weights,
    enabledRoutes: Option<seq<Route>>,
    disabledRoutes: Option<seq<Route>>,
    timeWindows: Option<seq<TimeWindow>>,
    logging: bool)

  /** The intervention kinds `selectChaosType` chooses among. */
  datatype ChaosKind = DelayKind | ErrorKind | GibberishKind

  /**
   * The result of one `applyChaos` call, by its `type` field. Identifiers,
   * human-readable delay messages and gibberish bodies are not modelled.
   */
  datatype Outcome =
    | NoChaos
    | Delay(delay: int)
    | Error(statusCode: int, message: string)
    | Gibberish(gibberishType: string, contentType: string)
}

=== FILE: utils.dfy ===
/**
 * The pure helpers of the configuration layer: `validateConfig`,
 * `mergeConfig`, `formatStats` and `createSchedule`.
 */
module Utils {
  import opened Wrappers
  import opened Types
  import opened EngineStats
  import ChaosLevels

  // ---------------------------------------------------------------------------
  // validateConfig
  // ---------------------------------------------------------------------------

  /** The status codes `validateConfig` knows; any other code only draws a warning. */
  const ValidErrorCodes: seq<int> := [400, 401, 403, 404, 429, 500, 502, 503, 504]

  const ProbabilityError: string := "Probability must be between 0 and 1"
  const DelayRangeShapeError: string := "DelayRange must be an array of two numbers [min, max]"
  const DelayRangeOrderError: string := "DelayRange min must be less than max"
  const ErrorCodesError: string := "ErrorCodes must be a non-empty array"

  /** `errorCodes.filter(code => !validErrorCodes.includes(code))`: the codes that are warned about. */
  function InvalidCodes(codes: seq<int>): (bad: seq<int>)
    ensures forall x :: x in bad <==> x in codes && x !in ValidErrorCodes
    ensures |bad| <= |codes|
  {
    if |codes| == 0 then []
    else
      var rest := InvalidCodes(codes[1..]);
      assert forall x :: x in codes <==> x == codes[0] || x in codes[1..];
      if codes[0] in ValidErrorCodes then rest else [codes[0]] + rest
  }

  /** The configurations `validateConfig` accepts. */
  predicate AcceptableConfig(c: Config) {
    && 0.0 <= c.probability <= 1.0
    && |c.delayRange| == 2
    && c.delayRange[0] < c.delayRange[1]
    && |c.errorCodes| > 0
  }

  /**
   * `validateConfig(config)`: throws (here `Failure` with the message) at the
   * first failing check, in the source's order; otherwise succeeds, carrying
   * the unknown codes it warns about.
   */
  function ValidateConfig(c: Config): (r: Result<seq<int>, string>)
    ensures r.Success? <==> AcceptableConfig(c)
    ensures r.Success? ==> forall x :: x in r.value <==> x in c.errorCodes && x !in ValidErrorCodes
    ensures (c.probability < 0.0 || c.probability > 1.0) ==> r == Failure(ProbabilityError)
    ensures 0.0 <= c.probability <= 1.0 && |c.delayRange| != 2 ==> r == Failure(DelayRangeShapeError)
    ensures 0.0 <= c.probability <= 1.0 && |c.delayRange| == 2 && c.delayRange[0] >= c.delayRange[1] ==>
              r == Failure(DelayRangeOrderError)
    ensures (0.0 <= c.probability <= 1.0 && |c.delayRange| == 2 && c.delayRange[0] < c.delayRange[1] &&
             |c.errorCodes| == 0) ==> r == Failure(ErrorCodesError)
  {
    if c.probability < 0.0 || c.probability > 1.0 then Failure(ProbabilityError)
    else if |c.delayRange| != 2 then Failure(DelayRangeShapeError)
    else if c.delayRange[0] >= c.delayRange[1] then Failure(DelayRangeOrderError)
    else if |c.errorCodes| == 0 then Failure(ErrorCodesError)
    else Success(InvalidCodes(c.errorCodes))
  }

  /** Unknown status codes are reported but never make an otherwise acceptable configuration fail. */
  lemma UnknownCodesOnlyWarn(c: Config, code: int)
    requires 0.0 <= c.probability <= 1.0
    requires |c.delayRange| == 2 && c.delayRange[0] < c.delayRange[1]
    requires code in c.errorCodes && code !in ValidErrorCodes
    ensures ValidateConfig(c).Success? && code in ValidateConfig(c).value
  {
  }

  /** Probability 1.5 is rejected; so are the ranges [2000, 100] and [500, 500]. */
  lemma ValidationExamples(c: Config)
    requires c.delayRange == [100, 2000] && c.errorCodes == [500]
    ensures ValidateConfig(c.(probability := 1.5)) == Failure(ProbabilityError)
    ensures ValidateConfig(c.(probability := 0.5, delayRange := [2000, 100])) == Failure(DelayRangeOrderError)
    ensures ValidateConfig(c.(probability := 0.5, delayRange := [500, 500])) == Failure(DelayRangeOrderError)
    ensures ValidateConfig(c.(probability := 0.5)) == Success([])
  {
    assert 500 in ValidErrorCodes;
  }

  // ---------------------------------------------------------------------------
  // mergeConfig
  // ---------------------------------------------------------------------------

  /**
   * The user options of `mergeConfig(options)`. `None` is a key the caller
   * did not supply; for the nullable keys, `Some(None)` is an explicit `null`.
   */
  datatype Options = Options(
    chaos: Option<string>,
    probability: Option<real>,
    delayRange: Option<seq<int>>,
    errorCodes: Option<seq<int>>,
    chaosWeights: Option<Weights>,
    enabledRoutes: Option<Option<seq<Route>>>,
    disabledRoutes: Option<Option<seq<Route>>>,
    timeWindows: Option<Option<seq<TimeWindow>>>,
    logging: Option<bool>)

  /** `mergeConfig()` with its default argument `{}`. */
  const NoOptions: Options := Options(None, None, None, None, None, None, None, None, None)

  /** The base configuration when no known preset is named. */
  const DefaultConfig: Config :=
    Config(0.2, [100, 2000], [500, 503], Weights(60.0, 25.0, 15.0), None, None, None, false)

  /**
   * The base of the merge: the named preset if it exists, the default
   * otherwise. Every base passes validation and has weights totalling 100.
   */
  function BaseConfig(chaos: Option<string>): (c: Config)
    ensures chaos.Some? && chaos.value in ChaosLevels.Levels ==> c == ChaosLevels.Levels[chaos.value]
    ensures !(chaos.Some? && chaos.value in ChaosLevels.Levels) ==> c == DefaultConfig
    ensures c.chaosWeights.Total() == 100.0
    ensures AcceptableConfig(c)
  {
    if chaos.Some? && chaos.value in ChaosLevels.Levels then
      ChaosLevels.PresetWeightsSumTo100(chaos.value);
      ChaosLevels.Levels[chaos.value]
    else DefaultConfig
  }

  /**
   * `mergeConfig(options)`: `{ ...base, ...options }`, after which weights
   * that sum to zero are replaced by the base's weights.
   */
  function MergeConfig(o: Options): (c: Config)
    ensures c.chaosWeights.Total() != 0.0
    ensures c.probability == o.probability.GetOr(BaseConfig(o.chaos).probability)
    ensures c.delayRange == o.delayRange.GetOr(BaseConfig(o.chaos).delayRange)
    ensures c.errorCodes == o.errorCodes.GetOr(BaseConfig(o.chaos).errorCodes)
    ensures c.enabledRoutes == o.enabledRoutes.GetOr(BaseConfig(o.chaos).enabledRoutes)
    ensures c.disabledRoutes == o.disabledRoutes.GetOr(BaseConfig(o.chaos).disabledRoutes)
    ensures c.timeWindows == o.timeWindows.GetOr(BaseConfig(o.chaos).timeWindows)
    ensures c.logging == o.logging.GetOr(BaseConfig(o.chaos).logging)
    ensures o.chaosWeights.Some? && o.chaosWeights.value.Total() != 0.0 ==> c.chaosWeights == o.chaosWeights.value
    ensures !(o.chaosWeights.Some? && o.chaosWeights.value.Total() != 0.0) ==>
              c.chaosWeights == BaseConfig(o.chaos).chaosWeights
  {
    var base := BaseConfig(o.chaos);
    var merged := Config(
      o.probability.GetOr(base.probability),
      o.delayRange.GetOr(base.delayRange),
      o.errorCodes.GetOr(base.errorCodes),
      o.chaosWeights.GetOr(base.chaosWeights),
      o.enabledRoutes.GetOr(base.enabledRoutes),
      o.disabledRoutes.GetOr(base.disabledRoutes),
      o.timeWindows.GetOr(base.timeWindows),
      o.logging.GetOr(base.logging));
    if merged.chaosWeights.Total() == 0.0 then merged.(chaosWeights := base.chaosWeights) else merged
  }

  /** The options that supply every key of `c`, with any preset name. */
  function OptionsOf(c: Config, chaos: Option<string>): Options {
    Options(chaos, Some(c.probability), Some(c.delayRange), Some(c.errorCodes), Some(c.chaosWeights),
            Some(c.enabledRoutes), Some(c.disabledRoutes), Some(c.timeWindows), Some(c.logging))
  }

  /**
   * User keys override the base: a configuration supplied key by key comes
   * back unchanged whatever preset is named, unless its weights sum to 0.
   */
  lemma FullOverrideRoundTrip(c: Config, chaos: Option<string>)
    requires c.chaosWeights.Total() != 0.0
    ensures MergeConfig(OptionsOf(c, chaos)) == c
  {
  }

  /** Without options the default configuration; with only a known preset name, that preset. */
  lemma MergeBaseOnly(name: string)
    ensures MergeConfig(NoOptions) == DefaultConfig
    ensures name in ChaosLevels.Levels ==>
              MergeConfig(NoOptions.(chaos := Some(name))) == ChaosLevels.Levels[name]
    ensures name !in ChaosLevels.Levels ==> MergeConfig(NoOptions.(chaos := Some(name))) == DefaultConfig
  {
  }

  /** Weights that sum to 0 fall back to the base's, for example `mild`'s 70/20/10. */
  lemma ZeroWeightsFallBack(w: Weights)
    requires w.Total() == 0.0
    ensures MergeConfig(NoOptions.(chaos := Some("mild"), chaosWeights := Some(w))).chaosWeights
              == Weights(70.0, 20.0, 10.0)
  {
  }

  /** `mergeConfig({ chaos: 'mild', probability: 0.8 })` keeps 0.8 and inherits mild's range and logging. */
  lemma MildOverrideExample()
    ensures var c := MergeConfig(NoOptions.(chaos := Some("mild"), probability := Some(0.8)));
      c.probability == 0.8 && c.delayRange == [100, 1000] && c.logging
  {
  }

  // ---------------------------------------------------------------------------
  // formatStats
  // ---------------------------------------------------------------------------

  /**
   * `formatStats(stats)`: the snapshot unchanged plus `uptimeSeconds` and
   * `averageDelayMs`; the `chaosRatePercent` text is not modelled.
   */
  datatype FormattedStats = FormattedStats(stats: Snapshot, uptimeSeconds: int, averageDelayMs: int)

  /** `Math.round(x)`: the nearest integer, halves rounded up. */
  function JsRound(x: real): (k: int)
    ensures k as real - 0.5 <= x < k as real + 0.5
  {
    (x + 0.5).Floor
  }

  function FormatStats(snap: Snapshot): (f: FormattedStats)
    ensures f.stats == snap
    ensures f.uptimeSeconds * 1000 <= snap.uptime < (f.uptimeSeconds + 1) * 1000
    ensures f.averageDelayMs as real - 0.5 <= snap.averageDelay < f.averageDelayMs as real + 0.5
  {
    FormattedStats(snap, snap.uptime / 1000, JsRound(snap.averageDelay))
  }

  // ---------------------------------------------------------------------------
  // createSchedule
  // ---------------------------------------------------------------------------

  /** One input item, `{ time: 'HH:MM', chaos, duration }`, its time already split. */
  datatype ScheduleItem = ScheduleItem(hours: int, minutes: int, chaos: string, duration: Option<int>)

  /** One output entry; `time` is a millisecond timestamp. */
  datatype ScheduleEntry = ScheduleEntry(time: int, chaos: string, duration: int)

  /** One hour, the duration used when an item gives none (or 0). */
  const DefaultDuration: int := 3600000

  /** An item's entry for the day starting (local midnight) at `dayStart`. */
  function ToEntry(dayStart: int, item: ScheduleItem): (e: ScheduleEntry)
    ensures e.chaos == item.chaos
    ensures e.time - dayStart == item.hours * 3600000 + item.minutes * 60000
    ensures item.duration.None? || item.duration == Some(0) ==> e.duration == DefaultDuration
    ensures item.duration.Some? && item.duration.value != 0 ==> e.duration == item.duration.value
  {
    var duration := if item.duration.Some? && item.duration.value != 0 then item.duration.value else DefaultDuration;
    ScheduleEntry(dayStart + ClockMinutes(item.hours, item.minutes) * 60000, item.chaos, duration)
  }

  function Entries(dayStart: int, items: seq<ScheduleItem>): (es: seq<ScheduleEntry>)
    ensures |es| == |items|
    ensures forall i :: 0 <= i < |items| ==> es[i] == ToEntry(dayStart, items[i])
  {
    if |items| == 0 then [] else [ToEntry(dayStart, items[0])] + Entries(dayStart, items[1..])
  }

  predicate SortedByTime(es: seq<ScheduleEntry>) {
    forall i, j :: 0 <= i < j < |es| ==> es[i].time <= es[j].time
  }

  function Insert(e: ScheduleEntry, sorted: seq<ScheduleEntry>): (r: seq<ScheduleEntry>)
    requires SortedByTime(sorted)
    ensures SortedByTime(r)
    ensures multiset(r) == multiset(sorted) + multiset{e}
    ensures |r| == |sorted| + 1
  {
    if |sorted| == 0 then [e]
    else if e.time <= sorted[0].time then [e] + sorted
    else
      var rest := Insert(e, sorted[1..]);
      assert sorted == [sorted[0]] + sorted[1..];
      assert forall k :: 0 <= k < |rest| ==> sorted[0].time <= rest[k].time by {
        forall k | 0 <= k < |rest| ensures sorted[0].time <= rest[k].time {
          assert rest[k] in multiset(rest);
          assert rest[k] == e || rest[k] in multiset(sorted[1..]);
          if rest[k] != e {
            var m :| 0 <= m < |sorted[1..]| && sorted[1..][m] == rest[k];
            assert sorted[1..][m] == sorted[m + 1];
          }
        }
      }
      [sorted[0]] + rest
  }

  function SortByTime(es: seq<ScheduleEntry>): (r: seq<ScheduleEntry>)
    ensures SortedByTime(r)
    ensures multiset(r) == multiset(es)
  {
    if |es| == 0 then []
    else
      assert es == [es[0]] + es[1..];
      Insert(es[0], SortByTime(es[1..]))
  }

  /**
   * `createSchedule(scheduleConfig)`: one entry per item, in ascending order
   * of trigger time.
   */
  function CreateSchedule(dayStart: int, items: seq<ScheduleItem>): (r: seq<ScheduleEntry>)
    ensures |r| == |items|
    ensures SortedByTime(r)
    ensures multiset(r) == multiset(Entries(dayStart, items))
    ensures forall i :: 0 <= i < |items| ==> ToEntry(dayStart, items[i]) in r
  {
    var es := Entries(dayStart, items);
    var r := SortByTime(es);
    assert |r| == |multiset(r)| == |multiset(es)| == |es|;
    assert forall i :: 0 <= i < |items| ==> es[i] in multiset(r);
    r
  }
}

=== FILE: wrappers.dfy ===
/** `Option` and `Result`, used across the model. */
module Wrappers {

  /** A value that may be absent: `null`/`undefined` in the source. */
  datatype Option<+T> = None | Some(value: T) {

    /** The value if present, otherwise `default`. */
    function GetOr(default: T): T {
      match this
      case Some(v) => v
      case None => default
    }
  }

  /** The outcome of an operation that can throw: the value, or the thrown message. */
  datatype Result<+R, +E> = Success(value: R) | Failure(error: E)
}
